=== FILE: README.md ===
# Country and region store of the Node/Express boilerplate

This project models the store layer of an Express/Mongoose REST service
that keeps countries and the Indonesian administrative regions (provinces,
regencies, districts and villages). It covers:

- the Mongoose schemas: which paths each record declares and requires, the
  `trim` setter on every string path, strict mode, which drops undeclared
  keys, and the `required` validator, which refuses an empty string;
- the Country service. It guards `code` against duplicates with
  `isCodeTaken` on create and on update. It looks countries up by identity
  and by code, and deletes them;
- the four region services. These run the same create, get, update and
  delete steps with no guard and no cascade between collections;
- the Joi validators written for those services: create and update
  bodies, list queries, and identity parameters. Each validator is
  modelled as a predicate on the request, whether or not a route applies
  it.

Modules:

- `Text`: ECMAScript `String.prototype.trim`.
- `Documents`: identities, request bodies, failures, and casting a body
  onto a schema's paths.
- `CountryModel` and `RegionModel`: the records, `create`, and
  `Object.assign` followed by `save()`.
- `CountryService.CountryStore` and `RegionService.RegionStore`: classes
  whose map fields are the collections. Their methods change those fields
  as the services change the database.
- `RequestSchema`: the part of Joi used by the validators.
- `CountryValidation` and `RegionValidation`: the validators themselves.

A request body is a map from field names to the strings the client sent.
Each service call is one atomic step. A fresh identity is any identity the
collection does not hold.

A failure is one of:

- `NotFound`: HTTP 404, "… not found";
- `CodeTaken`: HTTP 400, "Code already taken";
- `Invalid`: the Mongoose validation error raised when a required path
  ends up empty after trimming.

## Model

| member | source | states |
|---|---|---|
| Text.Trim | src/models/country.model.js:9 | The `trim` setter's result has no white space at either end and is no longer than its input. |
| Text.TrimIsTrimOf | src/models/country.model.js:14 | Trimming removes only white space, and only at the two ends: the result is a contiguous slice of the input between two blank stretches. |
| Text.TrimOfTrimmed | src/models/region.model.js:9 | A value with no white space at either end is stored unchanged. |
| Text.TrimIdempotent | src/models/region.model.js:31 | Trimming a stored (already trimmed) value again changes nothing. |
| Text.TrimBlank | src/models/region.model.js:6-10 | A value trims to the empty string exactly when it is white space alone, which is exactly when `required` refuses it. |
| Documents.Trimmed | src/models/country.model.js:11-15 | An optional path stays unset when absent, and holds the trimmed string when set. |
| Documents.Cast | src/models/country.model.js:4-20 | A body cast onto a schema keeps exactly the declared paths that the body carries (strict mode), each holding the trimmed body value. |
| Documents.FilledCast | src/models/country.model.js:6-10 | The cast values fill every required path exactly when the body has a non-blank string for each of them. |
| Documents.FreshId | src/services/country.service.js:14 | There is always an identity the collection does not hold yet. |
| CountryModel.Make | src/models/country.model.js:4-20 | A country exists for given path values exactly when `name_country` is non-empty, and its values are those given. Otherwise the result is `Invalid`. |
| CountryModel.ValuesInjective | src/models/country.model.js:4-20 | A country is determined by its path values. |
| CountryModel.WellFormedValues | src/models/country.model.js:6-15 | A stored country has a non-empty, trimmed name and a trimmed code when it has one. |
| CountryModel.FromBody | src/models/country.model.js:6-15 | `Country.create(body)` succeeds exactly when the body has a non-blank `name_country`. The record holds the trimmed name and the trimmed code, or no code when the body has none. Otherwise it fails `Invalid`. |
| CountryModel.Assign | src/services/country.service.js:63-64 | `Object.assign` then `save()` refuses only a blank name. Otherwise each field the body carries is overwritten with its trimmed value and every other field is kept. The result is again well-formed. |
| CountryModel.AssignEmptyBody | src/services/country.service.js:63-64 | An update with an empty body leaves the country as it was. |
| CountryModel.AssignIdempotent | src/services/country.service.js:63-64 | Applying the same update body twice gives the same record as applying it once. |
| CountryModel.AssignIgnoresUndeclared | src/models/country.model.js:4-20 | A body key the schema does not declare has no effect on an update. |
| CountryModel.CodesUnique | src/services/country.service.js:11-13 | The invariant that the guard keeps: every code set on a country is held by that country alone. |
| CountryModel.IsCodeTakenExclusion | src/models/country.model.js:32-35 | `isCodeTaken` with an excluded identity differs from the unexcluded query only by that identity's own match. |
| CountryModel.OwnCodeNotTaken | src/models/country.model.js:32-35 | When codes are unique, a country's own code is not taken once its identity is excluded. |
| CountryModel.CreatedCodeIsTaken | src/services/country.service.js:11-14 | Right after a country is stored, `isCodeTaken` holds for every create whose code trims to the stored code, so that create is refused. |
| CountryModel.CreateKeepsCodesUnique | src/services/country.service.js:10-15 | Storing a created country whose code the guard found free keeps codes unique. |
| CountryModel.AssignKeepsCodesUnique | src/services/country.service.js:60-64 | An update whose code is non-empty, and not held by another country, keeps codes unique. So does an update without a code. |
| CountryModel.RemoveKeepsCodesUnique | src/services/country.service.js:78 | Removing a country keeps codes unique. |
| CountryModel.EmptyCodeSkipsGuard | src/services/country.service.js:60 | The truthiness test skips the guard for an empty code. Two countries can then end up with the same empty code (a concrete store shows it). |
| CountryService.CountryStore.constructor | src/models/country.model.js:40 | A new collection is empty and valid. |
| CountryService.CountryStore.CreateCountry | src/services/country.service.js:10-15 | A taken code gives `CodeTaken`, and the store is unchanged. Otherwise, when the record fails validation, creation gives `Invalid` and the store is unchanged. On success exactly one record is added, under a fresh identity, holding the cast body. Code uniqueness and record validity are preserved. |
| CountryService.CountryStore.GetCountryById | src/services/country.service.js:36-38 | Returns the stored record with that identity, or nothing. |
| CountryService.CountryStore.GetCountryByCode | src/services/country.service.js:45-47 | Returns nothing exactly when no country holds the trimmed code. Otherwise it returns a stored country holding it. |
| CountryService.CountryStore.UpdateCountryById | src/services/country.service.js:55-66 | An unknown identity gives `NotFound`. A non-empty body code held by another country gives `CodeTaken`. Past both checks, a merged record that fails validation gives `Invalid`. Every failure leaves the store unchanged. On success only that record is replaced, by the merge of the body, and the merged record is returned. Uniqueness is preserved whenever the body's code, if present, is non-empty. |
| CountryService.CountryStore.DeleteCountryById | src/services/country.service.js:73-80 | An unknown identity gives `NotFound` and the store is unchanged. Otherwise exactly that record is removed and returned. Uniqueness is preserved. |
| CountryService.DuplicateCodeScenario | src/services/country.service.js:10-15 | In an empty store, creating "Indonesia" with code "ID" stores that record. A second create with code "ID" is refused with `CodeTaken`. |
| CountryService.OwnCodeScenario | src/services/country.service.js:55-80 | Updating a stored country with its own code succeeds and leaves the record as it was. Deleting it then returns it and removes exactly that identity. |
| RegionModel.Values | src/models/region.model.js:4-116 | A record's path values lie within its schema's paths and include every required path. |
| RegionModel.WellFormedValues | src/models/region.model.js:4-116 | A stored region has every required path non-empty and every string trimmed. |
| RegionModel.Make | src/models/region.model.js:58-84 | A region of a kind exists for given path values exactly when every required path is non-empty. It keeps its kind and those values. |
| RegionModel.ValuesInjective | src/models/region.model.js:4-116 | A region is determined by its kind and its path values. |
| RegionModel.FromBody | src/services/region.service.js:10-12 | `create(body)` succeeds exactly when each required path of the kind has a non-blank body value. The record holds the cast, trimmed body. Otherwise it fails `Invalid`. |
| RegionModel.Assign | src/services/region.service.js:48-50 | `Object.assign` then `save()` keeps the kind and refuses only a blank required value. Each declared path the body carries is overwritten with its trimmed value, and the others are kept. |
| RegionModel.AssignFieldwise | src/services/region.service.js:110-112 | After a successful update, each declared path holds the body's trimmed value when the body carries it, and its old value otherwise. |
| RegionModel.AssignEmptyBody | src/services/region.service.js:172-174 | An empty update body leaves the region as it was. |
| RegionModel.AssignIdempotent | src/services/region.service.js:234-236 | Applying the same update body twice gives the same record as applying it once. |
| RegionModel.AssignUndeclaredOnly | src/models/region.model.js:58-84 | A body carrying only undeclared keys leaves the region as it was. |
| RegionModel.AssignIgnoresUndeclared | src/models/region.model.js:90-116 | An undeclared body key has no effect on an update. |
| RegionService.RegionStore.constructor | src/models/region.model.js:125-140 | The four new collections are empty and valid. |
| RegionService.RegionStore.Create | src/services/region.service.js:10-12 | Inserts without a duplicate check. It fails `Invalid` exactly when `create` fails, and leaves the collection unchanged. On success the record is added under a fresh identity. Every other kind's collection is unchanged. |
| RegionService.RegionStore.GetById | src/services/region.service.js:33-35 | Returns the record with that identity, or nothing, and never an error. |
| RegionService.RegionStore.UpdateById | src/services/region.service.js:43-51 | An unknown identity gives `NotFound`. For a stored identity, a merged record that fails validation gives `Invalid`. Every failure writes nothing. On success only that record is replaced, by the merge of the body, and returned. Other kinds are untouched. |
| RegionService.RegionStore.DeleteById | src/services/region.service.js:58-65 | An unknown identity gives `NotFound`. Otherwise exactly that record is removed and returned, and a later get-by-id finds nothing. Other kinds are untouched: nothing cascades. |
| RegionService.NoCascadeScenario | src/services/region.service.js:58-127 | Deleting a province and then a regency removes exactly those two records. The regency survives the province's deletion, and the district and village collections are unchanged. |
| RequestSchema.DecimalValue | src/validations/country.validation.js:16-17 | Decimal digits read back as the number they were written from. |
| RequestSchema.IntegerValue | src/validations/country.validation.js:16-17 | Every value `Joi.number().integer()` converts a string to is a safe integer. |
| RequestSchema.DecimalIsIntegerText | src/validations/country.validation.js:16-17 | `Joi.number().integer()` accepts every safe natural number written in decimal, and converts it back to that number. |
| RequestSchema.NegatedDecimalIsIntegerText | src/validations/region.validation.js:89-90 | A minus sign before a safe natural number in decimal is accepted and converts to the negated number; "-0" converts to 0. |
| RequestSchema.NoDigitsNoInteger | src/validations/region.validation.js:15-16 | A value without any digit, the empty value included, is never an integer. |
| RequestSchema.ValidatesSize | src/validations/region.validation.js:23-28 | A valid object has at least the `.min` number of keys and no more keys than the schema lists. |
| RequestSchema.ListQueryShape | src/validations/region.validation.js:44-54 | A list query is valid exactly when it uses only the listed keys, its string values are non-empty, and `limit` and `page` are integers. |
| RequestSchema.RequiredStrings | src/validations/region.validation.js:36-43 | A schema of required strings accepts exactly the objects with precisely those keys, each value non-empty. |
| RequestSchema.OptionalStrings | src/validations/region.validation.js:59-66 | Optional strings with `.min(1)` accept exactly the non-empty objects whose keys are among those listed and whose values are non-empty. |
| RequestSchema.MinOneRefusesEmpty | src/validations/region.validation.js:23-28 | `.min(1)` refuses exactly the empty object. |
| CountryValidation.CreateCountryBodyShape | src/validations/country.validation.js:4-9 | A create body is valid exactly when it has both `name_country` and `code`, both non-empty, and nothing else. |
| CountryValidation.ValidCreateCountrySaves | src/validations/country.validation.js:4-9 | After validation the guard always receives a defined code. The create then fails only for a name of white space alone, because the validator does not trim. The stored code is the trimmed body code. |
| CountryValidation.UpdateCountryBodyShape | src/validations/country.validation.js:31-36 | An update body is valid exactly when it carries `name_country`, may carry `code`, has nothing else, and has no empty value. As written, the name is required on every update. |
| CountryValidation.ValidUpdateKeepsCodesUnique | src/validations/country.validation.js:31-36 | For a validated update body, the service's guard is enough to keep codes unique. |
| CountryValidation.GetCountriesQueryShape | src/validations/country.validation.js:11-19 | The list query accepts only `name_country`, `code`, `sortBy`, `limit` and `page`. The strings must be non-empty, and `limit` and `page` must be integers. |
| CountryValidation.PagingAccepted | src/validations/country.validation.js:16-17 | Any safe `limit` and `page` written in decimal pass the list query. |
| CountryValidation.CountryIdParamsShape | src/validations/country.validation.js:21-25 | For get and delete, `countryId` may be absent. When present it must be non-empty and pass the objectId check. |
| CountryValidation.UpdateCountryParamsShape | src/validations/country.validation.js:28-30 | For update, `countryId` is required and must pass the objectId check. |
| CountryValidation.UpdateCountryShape | src/validations/country.validation.js:27-37 | A whole update request is valid exactly when its parameters are the one `countryId` passing the objectId check and its body carries `name_country`, possibly `code`, nothing else, and no empty value. |
| RegionValidation.WrittenBodyKeysDiffer | src/validations/region.validation.js:74-81 | The validators' body keys equal the schema's paths for every kind except District. |
| RegionValidation.CreateBodyShape | src/validations/region.validation.js:4-9 | A create body is valid exactly when it has every key the validator lists, each non-empty, and no other. The name is required there, although the schema makes it optional. |
| RegionValidation.UpdateBodyShape | src/validations/region.validation.js:97-104 | An update body is valid exactly when it is non-empty, uses only the listed keys, and has no empty value. |
| RegionValidation.WrittenValidatorsAgree | src/validations/region.validation.js:112-119 | For Province, Regency and Village, the validators as written agree with validators built from the schema's own paths. |
| RegionValidation.DistrictCreateRefused | src/validations/region.validation.js:74-81 | Every create-Districts body that passes validation, as written, is refused by the District schema. |
| RegionValidation.DistrictUpdateIgnored | src/validations/region.validation.js:97-104 | A validated update-Districts body that carries only `kd_districts` and `name_districts` leaves the district unchanged. |
| RegionValidation.ValidCreateSaves | src/models/region.model.js:58-84 | With validators built from the schema's paths, a validated create body is saved unless a required value is white space alone. |
| RegionValidation.ValidCreateSetsName | src/validations/region.validation.js:36-43 | A saved, validated create body also sets the name path, holding the trimmed value. |
| RegionValidation.ValidUpdateTakesEffect | src/services/region.service.js:172-174 | With validators built from the schema's paths, a validated update body is non-empty and every key in it takes effect. |
| RegionValidation.ListQueryShape | src/validations/region.validation.js:82-92 | Each kind's list query accepts only its listed filters, `sortBy`, `limit` and `page`. The strings must be non-empty, and `limit` and `page` must be integers. |
| RegionValidation.UpdateParamsShape | src/validations/region.validation.js:20-22 | Update parameters are exactly the kind's identity parameter, which must pass the objectId check. |
| RegionValidation.DeleteParamsShape | src/validations/region.validation.js:30-34 | Delete parameters hold at most the kind's identity parameter. When present it must be non-empty and pass the objectId check. |

## Left out

- Routing, authentication and the `validate` middleware are not modelled. The routes apply only six validators: Country create, update and delete (src/routes/v1/country.route.js:12-18) and Province create, update and delete (src/routes/v1/region.route.js:12-17). No route applies the Country list and get validators, whose handlers run unvalidated. No route at all reaches the Regency, District and Village services, so their validators and services are modelled as written but are unreachable over HTTP.

- The `query…` services (`queryCountry`, `queryProvinces`, `queryRegencies`, `queryDistricts`, `queryVillage`) forward to the pagination plugin. That plugin is not part of this model, so no paging, sorting or filtering behaviour is modelled.
- Controllers and routes: Express wiring, `catchAsync`, HTTP status codes, Swagger comments, the `pick` helper and the `auth` middleware.
- The `objectId` custom check is not part of this model. It is a parameter of the parameter validators.
- The `validate` middleware that runs the Joi schemas is not part of this model.
  - Each validator is modelled as a predicate on one object of strings.
  - JSON values that are not strings (numbers, arrays, nested objects, null) are not modelled.
- RequestSchema.IsIntegerText accepts white space, an optional sign and decimal digits within the safe range, and RequestSchema.IntegerValue converts "-0" to 0. Joi's conversion also accepts decimal-point and exponent forms whose value is an integer, such as "1.0" or "1e2". The model refuses those forms.
- Mongoose internals not modelled:
  - ObjectId generation, modelled as the choice of any fresh identity;
  - the `createdAt`/`updatedAt` timestamps;
  - the `toJSON` plugin;
  - casting of non-string values;
  - the text of `ApiError` messages, of which only the kind of failure is kept. The Province and Regency delete paths say "Country not found", and the Village path says "Villagenot found".
- Documents.Cast, CountryModel.AssignIgnoresUndeclared, RegionModel.AssignIgnoresUndeclared and RegionModel.AssignUndeclaredOnly treat a body key that names one of the paths Mongoose adds to every schema (`_id`, `__v`, and `createdAt`/`updatedAt` from `timestamps: true`) as undeclared, and drop it. Mongoose instead casts such a key. An `_id` that is not an ObjectId fails the cast, an existing `_id` fails with a duplicate key, and changing the immutable `_id` in an update fails the save. The model does not capture these failures. Every validator refuses these keys, so a request that passed validation never carries them. The same members also drop, on update, a body key that names a property or method of the document object itself, such as `save`, `isNew` or `_doc`. The service's `Object.assign` sets such a key as a plain property of the document, which changes what `save()` then does. An own `save` hides the model's method, so the call throws and nothing is written. `isNew` sends `save()` down the insert path, where it fails on the duplicate `_id`. The model instead ignores the key and saves the declared fields. Create is not affected, because the model constructor drops such keys in strict mode. Every validator refuses all of these keys too.
- Async and concurrency are not modelled. Each service call is one atomic step, so the check-then-write race between `isCodeTaken` and the write is out of scope.
- CountryModel.IsCodeTaken: an undefined code is treated as a query for `null`, which matches every country without a code. `isCodeTaken(undefined)` is therefore true as soon as such a country exists. This follows MongoDB's matching of `null` against missing fields, and is an assumption about the driver.
- CountryService.CountryStore.GetCountryByCode: the query matches on the trimmed code, because Mongoose applies the path's setter to query values. Which of several matches `findOne` returns is left open.
- CountryService.CountryStore.UpdateCountryById: uniqueness is promised only when the body's code, if present, is non-empty. The service's truthiness test skips the guard for an empty code. The validator refuses such a body (CountryValidation.ValidUpdateKeepsCodesUnique), and CountryModel.EmptyCodeSkipsGuard shows what happens without it.

## Findings

| source | as written | input that shows it | evidently intended | confidence | as-written member | corrected member |
|---|---|---|---|---|---|---|
| src/validations/region.validation.js:74-81 | The create-Districts validator requires `kd_districts` and `name_districts` and refuses any other key. The District schema requires `kd_district` and declares `name_district` (src/models/region.model.js:70-79). | The body `{id_regency: "1", kd_regency: "2", kd_districts: "3", name_districts: "A"}` passes validation. `create` then drops the two undeclared keys and refuses the record, because `kd_district` is missing. Every create-Districts body the validator accepts would be refused by the service. This is latent: src/routes/v1/region.route.js:9-17 mounts no District route. | The validator should list the schema's own paths, `kd_district` and `name_district` (the update validator likewise). | high, not executed | RegionValidation.DistrictCreateRefused | RegionValidation.ValidCreateSaves |

=== FILE: country_model.dfy ===
/**
 * The Country schema: a required, trimmed `name_country` and an optional,
 * trimmed `code`; what `Country.create` and `Object.assign` followed by
 * `save()` make of a request body; and the `isCodeTaken` query with the
 * uniqueness of codes that it guards.
 */
module CountryModel {
  import opened Text
  import opened Documents

  const NameCountry := "name_country"
  const Code := "code"

  /** The paths the Country schema declares. */
  const Paths: set<string> := {NameCountry, Code}

  /** The paths the Country schema requires. */
  const RequiredPaths: set<string> := {NameCountry}

  datatype Country = Country(name_country: string, code: Option<string>)

  /** The path values a country document holds; an unset `code` has no entry. */
  function Values(c: Country): (vals: map<string, string>)
    ensures vals.Keys <= Paths && NameCountry in vals
    ensures vals[NameCountry] == c.name_country
    ensures Get(vals, Code) == c.code
  {
    map[NameCountry := c.name_country] + Optional(Code, c.code)
  }

  /** What the schema guarantees of every stored country: a non-empty name, and trimmed strings. */
  predicate WellFormed(c: Country) {
    && c.name_country != "" && IsTrimmed(c.name_country)
    && (c.code.Some? ==> IsTrimmed(c.code.value))
  }

  /** WellFormed says of the fields what the schema's validation says of the path values. */
  lemma WellFormedValues(c: Country)
    ensures WellFormed(c) <==> Filled(Values(c), RequiredPaths) && AllTrimmed(Values(c))
  {
    var vals := Values(c);
    if c.code.Some? {
      assert Code in vals && vals[Code] == c.code.value;
    }
  }

  /** The country with the given path values, or the schema's validation error. */
  function Make(vals: map<string, string>): (r: Outcome<Country>)
    requires vals.Keys <= Paths
    ensures r.Ok? <==> Filled(vals, RequiredPaths)
    ensures r.Err? ==> r.error == Invalid
    ensures r.Ok? ==> Values(r.value) == vals
  {
    if !Filled(vals, RequiredPaths) then Err(Invalid)
    else
      var c := Country(vals[NameCountry], Get(vals, Code));
      assert Values(c).Keys == vals.Keys;
      Ok(c)
  }

  /** A country is determined by its path values. */
  lemma ValuesInjective(a: Country, b: Country)
    requires Values(a) == Values(b)
    ensures a == b
  {
    assert a.code == Get(Values(a), Code);
  }

  /** Every well-formed country is what Make builds from its own path values. */
  lemma MakeValues(c: Country)
    requires WellFormed(c)
    ensures Make(Values(c)) == Ok(c)
  {
    ValuesInjective(Make(Values(c)).value, c);
  }

  /**
   * Country.create(body): the document casts the body's declared fields
   * (trimmed) and is saved only when `name_country` is not blank.
   */
  function FromBody(body: Body): (r: Outcome<Country>)
    ensures r.Ok? <==> NameCountry in body && !IsBlank(body[NameCountry])
    ensures r.Err? ==> r.error == Invalid
    ensures r.Ok? ==> WellFormed(r.value) && Values(r.value) == Cast(Paths, body)
    ensures r.Ok? ==> r.value.name_country == Trim(body[NameCountry])
    ensures r.Ok? ==> r.value.code == Trimmed(Get(body, Code))
  {
    var vals := Cast(Paths, body);
    if NameCountry in body then
      TrimBlank(body[NameCountry]);
      Make(vals)
    else
      Make(vals)
  }

  /**
   * Object.assign(country, body) followed by the validation that save() runs:
   * each declared field present in the body is overwritten with its trimmed
   * value, every other field is kept, and a blank name is refused.
   */
  function Assign(c: Country, body: Body): (r: Outcome<Country>)
    ensures r.Err? ==> r.error == Invalid
    ensures WellFormed(c) ==> (r.Ok? <==> (NameCountry in body ==> !IsBlank(body[NameCountry])))
    ensures r.Ok? && WellFormed(c) ==> WellFormed(r.value)
    ensures r.Ok? ==> Values(r.value) == Values(c) + Cast(Paths, body)
    ensures r.Ok? ==> r.value.name_country == (if NameCountry in body then Trim(body[NameCountry]) else c.name_country)
    ensures r.Ok? ==> r.value.code == (if Code in body then Some(Trim(body[Code])) else c.code)
  {
    var vals := Values(c) + Cast(Paths, body);
    if NameCountry in body then
      TrimBlank(body[NameCountry]);
      Make(vals)
    else
      Make(vals)
  }

  /** An empty body leaves a stored country as it is. */
  lemma AssignEmptyBody(c: Country)
    requires WellFormed(c)
    ensures Assign(c, map[]) == Ok(c)
  {
    assert Values(c) + Cast(Paths, map[]) == Values(c);
    MakeValues(c);
  }

  /** Applying the same update body a second time changes nothing more. */
  lemma AssignIdempotent(c: Country, body: Body)
    requires Assign(c, body).Ok?
    ensures Assign(Assign(c, body).value, body) == Assign(c, body)
  {
    var d := Assign(c, body).value;
    var vals := Cast(Paths, body);
    assert Values(d) + vals == Values(c) + vals + vals;
    assert Values(c) + vals + vals == Values(c) + vals;
    ValuesInjective(Assign(d, body).value, d);
  }

  /** Body keys that the schema does not declare have no effect on an update. */
  lemma AssignIgnoresUndeclared(c: Country, body: Body, key: string, v: string)
    requires key !in Paths
    ensures Assign(c, body[key := v]) == Assign(c, body)
  {
    var changed, kept := Cast(Paths, body[key := v]), Cast(Paths, body);
    assert changed.Keys == kept.Keys;
    assert forall k :: k in changed ==> changed[k] == kept[k];
    assert changed == kept;
  }

  /**
   * isCodeTaken(code, excludeId): findOne({ code, _id: { $ne: excludeId } }).
   * The query value goes through the path's trim setter. An undefined code is
   * sent as null, which matches a country without a code; an undefined
   * excludeId excludes nothing.
   */
  predicate IsCodeTaken(countries: map<Id, Country>, code: Option<string>, excludeId: Option<Id>) {
    exists id :: id in countries && Some(id) != excludeId && countries[id].code == Trimmed(code)
  }

  /** The identities of the countries holding `code`. */
  ghost function Holders(countries: map<Id, Country>, code: Option<string>): set<Id> {
    set id | id in countries && countries[id].code == code
  }

  /** No two countries hold the same code: each code set on a country is held by that country alone. */
  ghost predicate CodesUnique(countries: map<Id, Country>): (unique: bool)
    ensures unique <==> forall id :: id in countries && countries[id].code.Some? ==>
      Holders(countries, countries[id].code) == {id}
  {
    HoldersUnique(countries);
    forall i, j :: i in countries && j in countries && i != j && countries[i].code.Some? ==>
      countries[i].code != countries[j].code
  }

  /** Pairwise-distinct codes are the same as one holder per set code. */
  lemma HoldersUnique(countries: map<Id, Country>)
    ensures (forall i, j :: i in countries && j in countries && i != j && countries[i].code.Some? ==>
               countries[i].code != countries[j].code)
      <==> (forall id :: id in countries && countries[id].code.Some? ==> Holders(countries, countries[id].code) == {id})
  {
    if forall id :: id in countries && countries[id].code.Some? ==> Holders(countries, countries[id].code) == {id} {
      forall i, j | i in countries && j in countries && i != j && countries[i].code.Some?
        ensures countries[i].code != countries[j].code
      {
        assert j !in Holders(countries, countries[i].code);
      }
    }
  }

  /** Excluding an identity can only drop that identity's own match. */
  lemma IsCodeTakenExclusion(countries: map<Id, Country>, code: Option<string>, excludeId: Id)
    ensures IsCodeTaken(countries, code, None) <==>
      IsCodeTaken(countries, code, Some(excludeId))
      || (excludeId in countries && countries[excludeId].code == Trimmed(code))
  {
    if IsCodeTaken(countries, code, None) {
      var id :| id in countries && countries[id].code == Trimmed(code);
      if id != excludeId {
        assert Some(id) != Some(excludeId);
      }
    }
  }

  /** A country that keeps its own code is not reported as a clash when it is excluded. */
  lemma OwnCodeNotTaken(countries: map<Id, Country>, id: Id, code: string)
    requires CodesUnique(countries)
    requires id in countries && countries[id].code == Some(Trim(code))
    ensures !IsCodeTaken(countries, Some(code), Some(id))
  {
  }

  /**
   * Right after a country is stored, every create whose code trims to the
   * stored code is refused.
   */
  lemma CreatedCodeIsTaken(countries: map<Id, Country>, id: Id, body: Body, other: Body)
    requires FromBody(body).Ok?
    requires Trimmed(Get(other, Code)) == Trimmed(Get(body, Code))
    ensures IsCodeTaken(countries[id := FromBody(body).value], Get(other, Code), None)
  {
    var m := countries[id := FromBody(body).value];
    assert id in m && m[id].code == Trimmed(Get(other, Code));
  }

  /** Inserting a country whose code the guard found free keeps codes unique. */
  lemma CreateKeepsCodesUnique(countries: map<Id, Country>, id: Id, body: Body)
    requires CodesUnique(countries) && id !in countries
    requires FromBody(body).Ok?
    requires !IsCodeTaken(countries, Get(body, Code), None)
    ensures CodesUnique(countries[id := FromBody(body).value])
  {
    var c := FromBody(body).value;
    var m := countries[id := c];
    forall i, j | i in m && j in m && i != j && m[i].code.Some?
      ensures m[i].code != m[j].code
    {
      if i == id {
        assert j in countries && Some(j) != None;
      } else if j == id {
        assert i in countries && Some(i) != None;
      }
    }
  }

  /**
   * Overwriting a country whose new code, when the body has one, is non-empty
   * and free among the other countries keeps codes unique.
   */
  lemma AssignKeepsCodesUnique(countries: map<Id, Country>, id: Id, body: Body)
    requires CodesUnique(countries) && id in countries
    requires Assign(countries[id], body).Ok?
    requires Code in body ==> body[Code] != "" && !IsCodeTaken(countries, Get(body, Code), Some(id))
    ensures CodesUnique(countries[id := Assign(countries[id], body).value])
  {
    var c := Assign(countries[id], body).value;
    var m := countries[id := c];
    forall i, j | i in m && j in m && i != j && m[i].code.Some?
      ensures m[i].code != m[j].code
    {
      if Code in body {
        assert c.code == Trimmed(Get(body, Code));
        if i == id {
          assert j in countries && Some(j) != Some(id);
        } else if j == id {
          assert i in countries && Some(i) != Some(id);
        }
      }
    }
  }

  /** Removing a country keeps codes unique. */
  lemma RemoveKeepsCodesUnique(countries: map<Id, Country>, id: Id)
    requires CodesUnique(countries)
    ensures CodesUnique(countries - {id})
  {
  }

  /**
   * The update guard tests `updateBody.code` for truthiness, so an empty code
   * skips it: two countries can then end up sharing the empty code.
   */
  lemma EmptyCodeSkipsGuard()
    ensures var countries := map[0 := Country("Indonesia", Some("")), 1 := Country("Malaysia", Some("MY"))];
      && CodesUnique(countries)
      && Assign(countries[1], map[Code := ""]).Ok?
      && !CodesUnique(countries[1 := Assign(countries[1], map[Code := ""]).value])
  {
    var countries := map[0 := Country("Indonesia", Some("")), 1 := Country("Malaysia", Some("MY"))];
    var c := Assign(countries[1], map[Code := ""]);
    assert WellFormed(countries[1]) by {
      assert !IsSpace('M') && !IsSpace('a');
      assert IsTrimmed("Malaysia") && IsTrimmed("MY");
    }
    assert c.Ok? && c.value.code == Some(Trim(""));
    var m := countries[1 := c.value];
    assert m[0].code == m[1].code;
  }
}

=== FILE: country_service.dfy ===
/**
 * The Country service: create, get by id, get by code, update by id and
 * delete by id over the Country collection, each one atomic step.
 */
module CountryService {
  import opened Text
  import opened Documents
  import opened CountryModel

  class CountryStore {
    /** The Country collection: stored documents by identity. */
    var countries: map<Id, Country>

    /** Every stored country satisfies the schema. */
    ghost predicate Valid()
      reads this
    {
      forall id :: id in countries ==> WellFormed(countries[id])
    }

    constructor ()
      ensures Valid() && countries == map[]
    {
      countries := map[];
    }

    /**
     * createCountry: refuses a body whose code another country already
     * holds, otherwise stores the cast body under a fresh identity.
     */
    method CreateCountry(body: Body) returns (r: Outcome<Doc<Country>>)
      requires Valid()
      modifies this
      ensures Valid()
      ensures IsCodeTaken(old(countries), Get(body, Code), None) ==> r == Err(CodeTaken)
      ensures !IsCodeTaken(old(countries), Get(body, Code), None) && FromBody(body).Err? ==> r == Err(Invalid)
      ensures r.Ok? <==> !IsCodeTaken(old(countries), Get(body, Code), None) && FromBody(body).Ok?
      ensures r.Err? ==> countries == old(countries) && r.error in {CodeTaken, Invalid}
      ensures r.Ok? ==> && r.value.id !in old(countries)
                        && FromBody(body) == Ok(r.value.value)
                        && countries == old(countries)[r.value.id := r.value.value]
      ensures old(CodesUnique(countries)) ==> CodesUnique(countries)
    {
      if IsCodeTaken(countries, Get(body, Code), None) {
        return Err(CodeTaken);
      }
      var created := FromBody(body);
      if created.Err? {
        return Err(created.error);
      }
      ghost var freeId := FreshId(countries);
      var id :| id !in countries;
      if CodesUnique(countries) {
        CreateKeepsCodesUnique(countries, id, body);
      }
      countries := countries[id := created.value];
      r := Ok(Doc(id, created.value));
    }

    /** getCountryById: the stored document with that identity, or nothing. */
    function GetCountryById(id: Id): (r: Option<Doc<Country>>)
      reads this
      ensures r.Some? <==> id in countries
      ensures r.Some? ==> r.value == Doc(id, countries[id])
    {
      if id in countries then Some(Doc(id, countries[id])) else None
    }

    /**
     * getCountryByCode: some stored country whose code is the trimmed `code`,
     * or nothing when no country holds it.
     */
    method GetCountryByCode(code: string) returns (r: Option<Doc<Country>>)
      ensures r.None? <==> !IsCodeTaken(countries, Some(code), None)
      ensures r.Some? ==> && r.value.id in countries
                          && countries[r.value.id] == r.value.value
                          && r.value.value.code == Some(Trim(code))
    {
      if IsCodeTaken(countries, Some(code), None) {
        var id :| id in countries && countries[id].code == Some(Trim(code));
        r := Some(Doc(id, countries[id]));
      } else {
        r := None;
      }
    }

    /**
     * updateCountryById: NOT_FOUND for an unknown identity; BAD_REQUEST when
     * the body carries a non-empty code that another country holds;
     * otherwise the body's declared fields are assigned and saved.
     */
    method UpdateCountryById(id: Id, body: Body) returns (r: Outcome<Doc<Country>>)
      requires Valid()
      modifies this
      ensures Valid()
      ensures id !in old(countries) ==> r == Err(NotFound)
      ensures (&& id in old(countries) && Code in body && body[Code] != ""
               && IsCodeTaken(old(countries), Get(body, Code), Some(id))) ==> r == Err(CodeTaken)
      ensures (&& id in old(countries)
               && !(Code in body && body[Code] != "" && IsCodeTaken(old(countries), Get(body, Code), Some(id)))
               && Assign(old(countries)[id], body).Err?) ==> r == Err(Invalid)
      ensures r.Err? ==> countries == old(countries)
      ensures r.Ok? <==> && id in old(countries)
                         && !(Code in body && body[Code] != "" && IsCodeTaken(old(countries), Get(body, Code), Some(id)))
                         && Assign(old(countries)[id], body).Ok?
      ensures r.Ok? ==> && r.value == Doc(id, Assign(old(countries)[id], body).value)
                        && countries == old(countries)[id := r.value.value]
      ensures old(CodesUnique(countries)) && (Code in body ==> body[Code] != "") ==> CodesUnique(countries)
    {
      var found := GetCountryById(id);
      if found.None? {
        return Err(NotFound);
      }
      if Code in body && body[Code] != "" && IsCodeTaken(countries, Get(body, Code), Some(id)) {
        return Err(CodeTaken);
      }
      var updated := Assign(found.value.value, body);
      if updated.Err? {
        return Err(updated.error);
      }
      if CodesUnique(countries) && (Code in body ==> body[Code] != "") {
        AssignKeepsCodesUnique(countries, id, body);
      }
      countries := countries[id := updated.value];
      r := Ok(Doc(id, updated.value));
    }

    /** deleteCountryById: NOT_FOUND for an unknown identity, else removes and returns the document. */
    method DeleteCountryById(id: Id) returns (r: Outcome<Doc<Country>>)
      requires Valid()
      modifies this
      ensures Valid()
      ensures id !in old(countries) ==> r == Err(NotFound) && countries == old(countries)
      ensures id in old(countries) ==> r == Ok(Doc(id, old(countries)[id])) && countries == old(countries) - {id}
      ensures old(CodesUnique(countries)) ==> CodesUnique(countries)
    {
      var found := GetCountryById(id);
      if found.None? {
        return Err(NotFound);
      }
      countries := countries - {id};
      r := Ok(found.value);
    }
  }

  /** Two creates with the same code: the first is stored, the second refused. */
  method DuplicateCodeScenario() returns (first: Outcome<Doc<Country>>, second: Outcome<Doc<Country>>)
    ensures first.Ok? && first.value.value == Country("Indonesia", Some("ID"))
    ensures second == Err(CodeTaken)
  {
    var store := new CountryStore();
    var body := map[NameCountry := "Indonesia", Code := "ID"];
    assert FromBody(body) == Ok(Country("Indonesia", Some("ID"))) by {
      assert !IsBlank("Indonesia") by { assert !IsSpace("Indonesia"[0]); }
      assert IsTrimmed("Indonesia") && IsTrimmed("ID");
      TrimOfTrimmed("Indonesia");
      TrimOfTrimmed("ID");
    }
    first := store.CreateCountry(body);
    var other := map[NameCountry := "Indonesia Raya", Code := "ID"];
    CreatedCodeIsTaken(map[], first.value.id, body, other);
    second := store.CreateCountry(other);
  }

  /**
   * A stored country may be updated with its own code, which leaves it as it
   * was; once deleted it can no longer be found.
   */
  method OwnCodeScenario(store: CountryStore, id: Id, code: string)
      returns (same: Outcome<Doc<Country>>, gone: Outcome<Doc<Country>>)
    requires store.Valid() && CodesUnique(store.countries)
    requires id in store.countries && store.countries[id].code == Some(Trim(code))
    modifies store
    ensures same == Ok(Doc(id, old(store.countries)[id]))
    ensures gone == same
    ensures store.countries == old(store.countries) - {id}
  {
    OwnCodeNotTaken(store.countries, id, code);
    same := store.UpdateCountryById(id, map[Code := code]);
    assert same.value.value == old(store.countries)[id];
    gone := store.DeleteCountryById(id);
  }
}

=== FILE: country_validation.dfy ===
/**
 * The request validators of the Country routes: what a create body, a list
 * query, the `countryId` parameter and an update body must look like before
 * the service is called.
 */
module CountryValidation {
  import opened Text
  import opened Documents
  import opened CountryModel
  import opened RequestSchema

  const CountryId := "countryId"

  /** createCountry.body: both fields required. */
  const CreateCountryBody: ObjectSchema := Strings(Paths, true)

  /** getCountries.query: optional filters, sort order and integer paging. */
  const GetCountriesQuery: ObjectSchema := ListQuery(Paths)

  /** getCountry.params and deleteCountry.params: an optional string that passes the objectId check. */
  const CountryIdParams: ObjectSchema := map[CountryId := Key(StrObjectId, false)]

  /** updateCountry.params: a required value that passes the objectId check. */
  const UpdateCountryParams: ObjectSchema := map[CountryId := Key(AnyObjectId, true)]

  /** updateCountry.body: `name_country` required, `code` optional, at least one key. */
  const UpdateCountryBody: ObjectSchema := map[NameCountry := Key(Str, true), Code := Key(Str, false)]

  predicate ValidCreateCountry(body: Body) {
    Validates(CreateCountryBody, 0, body, NoCustomCheck)
  }

  predicate ValidGetCountries(query: Body) {
    Validates(GetCountriesQuery, 0, query, NoCustomCheck)
  }

  predicate ValidCountryIdParams(params: Body, objectId: string -> bool) {
    Validates(CountryIdParams, 0, params, objectId)
  }

  predicate ValidUpdateCountry(params: Body, body: Body, objectId: string -> bool) {
    Validates(UpdateCountryParams, 0, params, objectId) && Validates(UpdateCountryBody, 1, body, NoCustomCheck)
  }

  /** A create body is valid exactly when it has both fields, each a non-empty string, and nothing else. */
  lemma CreateCountryBodyShape(body: Body)
    ensures ValidCreateCountry(body) <==>
      && body.Keys == {NameCountry, Code}
      && body[NameCountry] != "" && body[Code] != ""
  {
    RequiredStrings(Paths, body, NoCustomCheck);
  }

  /**
   * What the service makes of a validated create body: the guard always sees
   * a defined code, and the save fails only for a name of white space alone,
   * which the validator lets through because it does not trim.
   */
  lemma ValidCreateCountrySaves(body: Body)
    requires ValidCreateCountry(body)
    ensures Get(body, Code) == Some(body[Code])
    ensures FromBody(body).Ok? <==> !IsBlank(body[NameCountry])
    ensures FromBody(body).Ok? ==> FromBody(body).value.code == Some(Trim(body[Code]))
  {
    CreateCountryBodyShape(body);
  }

  /**
   * An update body is valid exactly when it carries `name_country`, possibly
   * `code`, nothing else, and no empty value; the required name makes the
   * `.min(1)` bound redundant.
   */
  lemma UpdateCountryBodyShape(body: Body)
    ensures Validates(UpdateCountryBody, 1, body, NoCustomCheck) <==>
      && NameCountry in body && body.Keys <= Paths
      && forall key :: key in body ==> body[key] != ""
  {
    MinOneRefusesEmpty(UpdateCountryBody, body, NoCustomCheck);
    if NameCountry in body {
      assert body != map[];
    }
  }

  /**
   * For a validated update body the service's guard, which skips an empty
   * code, is enough: an update that passes it keeps codes unique.
   */
  lemma ValidUpdateKeepsCodesUnique(countries: map<Id, Country>, id: Id, body: Body)
    requires Validates(UpdateCountryBody, 1, body, NoCustomCheck)
    requires CodesUnique(countries) && id in countries
    requires !(Code in body && body[Code] != "" && IsCodeTaken(countries, Get(body, Code), Some(id)))
    requires Assign(countries[id], body).Ok?
    ensures CodesUnique(countries[id := Assign(countries[id], body).value])
  {
    UpdateCountryBodyShape(body);
    AssignKeepsCodesUnique(countries, id, body);
  }

  /**
   * A list query is valid exactly when its keys are among the five listed,
   * the string filters and the sort order are non-empty, and `limit` and
   * `page` are integers.
   */
  lemma GetCountriesQueryShape(query: Body)
    ensures ValidGetCountries(query) <==>
      && query.Keys <= {NameCountry, Code, "sortBy", "limit", "page"}
      && (forall key :: key in query && key != "limit" && key != "page" ==> query[key] != "")
      && ("limit" in query ==> IsIntegerText(query["limit"]))
      && ("page" in query ==> IsIntegerText(query["page"]))
  {
    ListQueryShape(Paths, query);
  }

  /** Paging by any safe count written in decimal is accepted. */
  lemma PagingAccepted(limit: nat, page: nat)
    requires limit <= MaxSafeInteger && page <= MaxSafeInteger
    ensures ValidGetCountries(map["limit" := Decimal(limit), "page" := Decimal(page)])
  {
    var query := map["limit" := Decimal(limit), "page" := Decimal(page)];
    assert query["limit"] == Decimal(limit) && query["page"] == Decimal(page);
    assert forall key :: key in query ==> key == "limit" || key == "page";
    DecimalIsIntegerText(limit);
    DecimalIsIntegerText(page);
    GetCountriesQueryShape(query);
  }

  /** The get and delete parameters: `countryId` may be left out, but if present must be a non-empty objectId. */
  lemma CountryIdParamsShape(params: Body, objectId: string -> bool)
    ensures ValidCountryIdParams(params, objectId) <==>
      && params.Keys <= {CountryId}
      && (CountryId in params ==> params[CountryId] != "" && objectId(params[CountryId]))
  {
  }

  /** The update parameters: exactly `countryId`, passing the objectId check. */
  lemma UpdateCountryParamsShape(params: Body, objectId: string -> bool)
    ensures Validates(UpdateCountryParams, 0, params, objectId) <==>
      params.Keys == {CountryId} && objectId(params[CountryId])
  {
  }

  /**
   * A whole update request is valid exactly when its parameters are the one
   * `countryId` passing the objectId check and its body carries
   * `name_country`, possibly `code`, nothing else, and no empty value.
   */
  lemma UpdateCountryShape(params: Body, body: Body, objectId: string -> bool)
    ensures ValidUpdateCountry(params, body, objectId) <==>
      && params.Keys == {CountryId} && objectId(params[CountryId])
      && NameCountry in body && body.Keys <= Paths
      && forall key :: key in body ==> body[key] != ""
  {
    UpdateCountryParamsShape(params, objectId);
    UpdateCountryBodyShape(body);
  }
}

=== FILE: documents.dfy ===
/**
 * What every collection of the store shares: document identities, request
 * bodies, the failures a service raises, and how a schema turns the string
 * values of a body into the values of its paths.
 */
module Documents {
  import opened Text

  /** A document identity, assigned by the store when the document is created. */
  type Id = nat

  /** A request body or query: field names to the strings the client sent. */
  type Body = map<string, string>

  datatype Option<+T> = None | Some(value: T)

  /**
   * The kinds of error a service raises: a missing document (NOT_FOUND), a
   * country code held by another country (BAD_REQUEST "Code already taken"),
   * and a document the schema refuses to save (a required path left empty).
   */
  datatype Failure = NotFound | CodeTaken | Invalid

  datatype Outcome<+T> = Ok(value: T) | Err(error: Failure)

  /** A stored document together with its identity. */
  datatype Doc<+T> = Doc(id: Id, value: T)

  /** A value after the `trim` setter; an absent value stays absent. */
  function Trimmed(v: Option<string>): (r: Option<string>)
    ensures r.Some? <==> v.Some?
    ensures r.Some? ==> IsTrimmed(r.value) && r.value == Trim(v.value)
  {
    match v
    case None => None
    case Some(s) => Some(Trim(s))
  }

  /**
   * The path values a schema with paths `paths` takes from `body`: keys the
   * schema does not declare are dropped (strict mode) and every value is
   * trimmed.
   */
  function Cast(paths: set<string>, body: Body): (vals: map<string, string>)
    ensures forall key :: key in vals <==> key in paths && key in body
    ensures forall key :: key in paths && key in body ==> vals[key] == Trim(body[key])
    ensures AllTrimmed(vals)
  {
    map key | key in paths && key in body :: Trim(body[key])
  }

  /** Every path value is trimmed. */
  ghost predicate AllTrimmed(vals: map<string, string>) {
    forall key :: key in vals ==> IsTrimmed(vals[key])
  }

  /** Every required path holds a non-empty string (the `required` validator on a String path). */
  predicate Filled(vals: map<string, string>, required: set<string>) {
    forall key :: key in required ==> key in vals && vals[key] != ""
  }

  /** The cast path values fill the required paths exactly when the body has a non-blank string for each. */
  lemma FilledCast(paths: set<string>, required: set<string>, body: Body)
    requires required <= paths
    ensures Filled(Cast(paths, body), required) <==> forall key :: key in required ==> key in body && !IsBlank(body[key])
  {
    forall key | key in required && key in body {
      TrimBlank(body[key]);
    }
  }

  /** The value at `key`: absent (a body's undefined field, an unset optional path) when there is none. */
  function Get(vals: map<string, string>, key: string): (v: Option<string>)
    ensures v.Some? <==> key in vals
    ensures v.Some? ==> v.value == vals[key]
  {
    if key in vals then Some(vals[key]) else None
  }

  /** The one-entry map for a set optional path, the empty map for an unset one. */
  function Optional(key: string, v: Option<string>): (m: map<string, string>)
    ensures key in m <==> v.Some?
    ensures m.Keys <= {key}
    ensures v.Some? ==> m[key] == v.value
  {
    if v.Some? then map[key := v.value] else map[]
  }

  /** An identity larger than every identity in `ids`. */
  ghost function Bound(ids: set<Id>): (b: Id)
    ensures forall id :: id in ids ==> id < b
  {
    if ids == {} then 0
    else
      var x :| x in ids;
      var rest := Bound(ids - {x});
      assert forall id :: id in ids ==> id == x || id in ids - {x};
      if x < rest then rest else x + 1
  }

  /** A collection never uses up the identities: there is always one it does not hold. */
  lemma FreshId<T>(docs: map<Id, T>) returns (id: Id)
    ensures id !in docs
  {
    id := Bound(docs.Keys);
  }
}

=== FILE: region_model.dfy ===
/**
 * The Province, Regency, District and Village schemas: which paths each
 * declares and requires (all trimmed strings), and what `create` and
 * `Object.assign` followed by `save()` make of a request body.
 */
module RegionModel {
  import opened Text
  import opened Documents

  /** The four region collections. */
  datatype Kind = ProvinceKind | RegencyKind | DistrictKind | VillageKind

  /** A region document; the last field of each kind is optional. */
  datatype Region =
    | Province(kd_province: string, name_province: Option<string>)
    | Regency(id_province: string, kd_province: string, kd_regency: string, name_regency: Option<string>)
    | District(id_regency: string, kd_regency: string, kd_district: string, name_district: Option<string>)
    | Village(id_districts: string, kd_districts: string, kd_village: string, name_village: Option<string>)

  function KindOf(r: Region): Kind {
    match r
    case Province(_, _) => ProvinceKind
    case Regency(_, _, _, _) => RegencyKind
    case District(_, _, _, _) => DistrictKind
    case Village(_, _, _, _) => VillageKind
  }

  /** The paths each schema requires. */
  function RequiredPaths(kind: Kind): set<string> {
    match kind
    case ProvinceKind => {"kd_province"}
    case RegencyKind => {"id_province", "kd_province", "kd_regency"}
    case DistrictKind => {"id_regency", "kd_regency", "kd_district"}
    case VillageKind => {"id_districts", "kd_districts", "kd_village"}
  }

  /** The optional path of each schema. */
  function OptionalPath(kind: Kind): string {
    match kind
    case ProvinceKind => "name_province"
    case RegencyKind => "name_regency"
    case DistrictKind => "name_district"
    case VillageKind => "name_village"
  }

  /** The paths each schema declares. */
  function Paths(kind: Kind): (paths: set<string>)
    ensures RequiredPaths(kind) <= paths && OptionalPath(kind) in paths
  {
    RequiredPaths(kind) + {OptionalPath(kind)}
  }

  /** The optional field of a region. */
  function Name(r: Region): Option<string> {
    match r
    case Province(_, name) => name
    case Regency(_, _, _, name) => name
    case District(_, _, _, name) => name
    case Village(_, _, _, name) => name
  }

  /** The path values a region document holds; an unset optional path has no entry. */
  function Values(r: Region): (vals: map<string, string>)
    ensures vals.Keys <= Paths(KindOf(r)) && RequiredPaths(KindOf(r)) <= vals.Keys
  {
    match r
    case Province(kd, name) =>
      map["kd_province" := kd] + Optional("name_province", name)
    case Regency(idp, kdp, kdr, name) =>
      map["id_province" := idp, "kd_province" := kdp, "kd_regency" := kdr] + Optional("name_regency", name)
    case District(idr, kdr, kdd, name) =>
      map["id_regency" := idr, "kd_regency" := kdr, "kd_district" := kdd] + Optional("name_district", name)
    case Village(idd, kdd, kdv, name) =>
      map["id_districts" := idd, "kd_districts" := kdd, "kd_village" := kdv] + Optional("name_village", name)
  }

  /** A required field: non-empty and trimmed. */
  predicate IsFilled(s: string) {
    s != "" && IsTrimmed(s)
  }

  /** An optional field: trimmed when set. */
  predicate IsTrimmedOption(v: Option<string>) {
    v.Some? ==> IsTrimmed(v.value)
  }

  /** What the schemas guarantee of every stored region: required fields non-empty, all strings trimmed. */
  predicate WellFormed(r: Region) {
    match r
    case Province(kd, name) => IsFilled(kd) && IsTrimmedOption(name)
    case Regency(idp, kdp, kdr, name) => IsFilled(idp) && IsFilled(kdp) && IsFilled(kdr) && IsTrimmedOption(name)
    case District(idr, kdr, kdd, name) => IsFilled(idr) && IsFilled(kdr) && IsFilled(kdd) && IsTrimmedOption(name)
    case Village(idd, kdd, kdv, name) => IsFilled(idd) && IsFilled(kdd) && IsFilled(kdv) && IsTrimmedOption(name)
  }

  /** WellFormed says of the fields what the schema's validation says of the path values. */
  lemma WellFormedValues(r: Region)
    ensures WellFormed(r) <==> Filled(Values(r), RequiredPaths(KindOf(r))) && AllTrimmed(Values(r))
  {
    assert Get(Values(r), OptionalPath(KindOf(r))) == Name(r);
  }

  /** The region of the given kind with the given path values, or the schema's validation error. */
  function Make(kind: Kind, vals: map<string, string>): (r: Outcome<Region>)
    requires vals.Keys <= Paths(kind)
    ensures r.Ok? <==> Filled(vals, RequiredPaths(kind))
    ensures r.Err? ==> r.error == Invalid
    ensures r.Ok? ==> KindOf(r.value) == kind && Values(r.value) == vals
  {
    if !Filled(vals, RequiredPaths(kind)) then Err(Invalid)
    else
      var name := Get(vals, OptionalPath(kind));
      assert RequiredPaths(kind) <= vals.Keys;
      var r := match kind
        case ProvinceKind => Province(vals["kd_province"], name)
        case RegencyKind => Regency(vals["id_province"], vals["kd_province"], vals["kd_regency"], name)
        case DistrictKind => District(vals["id_regency"], vals["kd_regency"], vals["kd_district"], name)
        case VillageKind => Village(vals["id_districts"], vals["kd_districts"], vals["kd_village"], name);
      assert Values(r).Keys == vals.Keys;
      Ok(r)
  }

  /** A region is determined by its kind and its path values. */
  lemma ValuesInjective(a: Region, b: Region)
    requires KindOf(a) == KindOf(b) && Values(a) == Values(b)
    ensures a == b
  {
    var opt := OptionalPath(KindOf(a));
    assert Get(Values(a), opt) == Name(a) && Get(Values(b), opt) == Name(b);
    match a
    case Province(_, _) =>
      assert Values(a)["kd_province"] == a.kd_province;
    case Regency(_, _, _, _) =>
      assert Values(a)["id_province"] == a.id_province && Values(a)["kd_province"] == a.kd_province;
      assert Values(a)["kd_regency"] == a.kd_regency;
    case District(_, _, _, _) =>
      assert Values(a)["id_regency"] == a.id_regency && Values(a)["kd_regency"] == a.kd_regency;
      assert Values(a)["kd_district"] == a.kd_district;
    case Village(_, _, _, _) =>
      assert Values(a)["id_districts"] == a.id_districts && Values(a)["kd_districts"] == a.kd_districts;
      assert Values(a)["kd_village"] == a.kd_village;
  }

  /** Every well-formed region is what Make builds from its own kind and path values. */
  lemma MakeValues(r: Region)
    requires WellFormed(r)
    ensures Make(KindOf(r), Values(r)) == Ok(r)
  {
    WellFormedValues(r);
    ValuesInjective(Make(KindOf(r), Values(r)).value, r);
  }

  /**
   * create(body) on the collection of `kind`: the document casts the body's
   * declared fields (trimmed) and is saved only when every required path
   * has a non-blank value.
   */
  function FromBody(kind: Kind, body: Body): (r: Outcome<Region>)
    ensures r.Ok? <==> forall key :: key in RequiredPaths(kind) ==> key in body && !IsBlank(body[key])
    ensures r.Err? ==> r.error == Invalid
    ensures r.Ok? ==> KindOf(r.value) == kind && WellFormed(r.value)
    ensures r.Ok? ==> Values(r.value) == Cast(Paths(kind), body)
  {
    var vals := Cast(Paths(kind), body);
    FilledCast(Paths(kind), RequiredPaths(kind), body);
    var r := Make(kind, vals);
    if r.Ok? then
      WellFormedValues(r.value);
      r
    else
      r
  }

  /**
   * Object.assign(region, body) followed by the validation that save() runs:
   * each declared path present in the body is overwritten with its trimmed
   * value, every other path is kept, and a blank required value is refused.
   */
  function Assign(r: Region, body: Body): (res: Outcome<Region>)
    ensures res.Err? ==> res.error == Invalid
    ensures WellFormed(r) ==>
      (res.Ok? <==> forall key :: key in RequiredPaths(KindOf(r)) && key in body ==> !IsBlank(body[key]))
    ensures res.Ok? && WellFormed(r) ==> WellFormed(res.value)
    ensures res.Ok? ==> KindOf(res.value) == KindOf(r)
    ensures res.Ok? ==> Values(res.value) == Values(r) + Cast(Paths(KindOf(r)), body)
  {
    var kind := KindOf(r);
    var vals := Values(r) + Cast(Paths(kind), body);
    var res := Make(kind, vals);
    WellFormedValues(r);
    AssignFilled(r, body);
    if res.Ok? then
      WellFormedValues(res.value);
      res
    else
      res
  }

  /** For a well-formed region, the merged values fill the required paths unless the body blanks one. */
  lemma AssignFilled(r: Region, body: Body)
    ensures WellFormed(r) ==>
      (Filled(Values(r) + Cast(Paths(KindOf(r)), body), RequiredPaths(KindOf(r))) <==>
       forall key :: key in RequiredPaths(KindOf(r)) && key in body ==> !IsBlank(body[key]))
  {
    WellFormedValues(r);
    forall key | key in RequiredPaths(KindOf(r)) && key in body {
      TrimBlank(body[key]);
    }
  }

  /**
   * The fields of an updated region: a declared path the body carries holds
   * the body's trimmed value, any other path is as it was.
   */
  lemma AssignFieldwise(r: Region, body: Body, key: string)
    requires Assign(r, body).Ok? && key in Paths(KindOf(r))
    ensures key in body ==> Get(Values(Assign(r, body).value), key) == Some(Trim(body[key]))
    ensures key !in body ==> Get(Values(Assign(r, body).value), key) == Get(Values(r), key)
  {
  }

  /** An empty body leaves a stored region as it is. */
  lemma AssignEmptyBody(r: Region)
    requires WellFormed(r)
    ensures Assign(r, map[]) == Ok(r)
  {
    assert Values(r) + Cast(Paths(KindOf(r)), map[]) == Values(r);
    MakeValues(r);
  }

  /** Applying the same update body a second time changes nothing more. */
  lemma AssignIdempotent(r: Region, body: Body)
    requires Assign(r, body).Ok?
    ensures Assign(Assign(r, body).value, body) == Assign(r, body)
  {
    var d := Assign(r, body).value;
    var vals := Cast(Paths(KindOf(r)), body);
    assert Values(d) + vals == Values(r) + vals + vals;
    assert Values(r) + vals + vals == Values(r) + vals;
    ValuesInjective(Assign(d, body).value, d);
  }

  /** A body carrying only keys the schema does not declare leaves a stored region as it is. */
  lemma AssignUndeclaredOnly(r: Region, body: Body)
    requires WellFormed(r)
    requires forall key :: key in body ==> key !in Paths(KindOf(r))
    ensures Assign(r, body) == Ok(r)
  {
    var vals := Cast(Paths(KindOf(r)), body);
    assert vals.Keys == {};
    assert Values(r) + vals == Values(r);
    MakeValues(r);
  }

  /** Body keys that the schema does not declare have no effect on an update. */
  lemma AssignIgnoresUndeclared(r: Region, body: Body, key: string, v: string)
    requires key !in Paths(KindOf(r))
    ensures Assign(r, body[key := v]) == Assign(r, body)
  {
    var changed, kept := Cast(Paths(KindOf(r)), body[key := v]), Cast(Paths(KindOf(r)), body);
    assert changed.Keys == kept.Keys;
    assert forall k :: k in changed ==> changed[k] == kept[k];
    assert changed == kept;
  }
}

=== FILE: region_service.dfy ===
/**
 * The region service: create, get by id, update by id and delete by id for
 * each of the Province, Regency, District and Village collections. The four
 * run the same steps, with no uniqueness guard and no cascade between
 * collections; each call is one atomic step.
 */
module RegionService {
  import opened Documents
  import opened RegionModel

  /** Every document of `docs` is a well-formed region of the given kind. */
  ghost predicate HoldsOnly(docs: map<Id, Region>, kind: Kind) {
    forall id :: id in docs ==> KindOf(docs[id]) == kind && WellFormed(docs[id])
  }

  class RegionStore {
    var provinces: map<Id, Region>
    var regencies: map<Id, Region>
    var districts: map<Id, Region>
    var villages: map<Id, Region>

    /** The collection of a kind: stored documents by identity. */
    function Collection(kind: Kind): map<Id, Region>
      reads this
    {
      match kind
      case ProvinceKind => provinces
      case RegencyKind => regencies
      case DistrictKind => districts
      case VillageKind => villages
    }

    /** Each collection holds only well-formed documents of its own kind. */
    ghost predicate Valid()
      reads this
    {
      && HoldsOnly(provinces, ProvinceKind)
      && HoldsOnly(regencies, RegencyKind)
      && HoldsOnly(districts, DistrictKind)
      && HoldsOnly(villages, VillageKind)
    }

    constructor ()
      ensures Valid()
      ensures forall kind :: Collection(kind) == map[]
    {
      provinces, regencies, districts, villages := map[], map[], map[], map[];
    }

    /** Replaces the collection of `kind`; the other three stay as they are. */
    method SetCollection(kind: Kind, docs: map<Id, Region>)
      modifies this
      ensures Collection(kind) == docs
      ensures forall k :: k != kind ==> Collection(k) == old(Collection(k))
    {
      match kind
      case ProvinceKind => provinces := docs;
      case RegencyKind => regencies := docs;
      case DistrictKind => districts := docs;
      case VillageKind => villages := docs;
    }

    /** Valid() holds when the collection of `kind` alone changed and still holds only its kind. */
    lemma ValidAfterSet(kind: Kind)
      requires HoldsOnly(Collection(kind), kind)
      requires forall k :: k != kind ==> HoldsOnly(Collection(k), k)
      ensures Valid()
    {
      assert HoldsOnly(Collection(ProvinceKind), ProvinceKind);
      assert HoldsOnly(Collection(RegencyKind), RegencyKind);
      assert HoldsOnly(Collection(DistrictKind), DistrictKind);
      assert HoldsOnly(Collection(VillageKind), VillageKind);
    }

    /** createProvince, createRegency, createDistricts, createVillage: insert without any duplicate check. */
    method Create(kind: Kind, body: Body) returns (r: Outcome<Doc<Region>>)
      requires Valid()
      modifies this
      ensures Valid()
      ensures r.Ok? <==> FromBody(kind, body).Ok?
      ensures r.Err? ==> r.error == Invalid && Collection(kind) == old(Collection(kind))
      ensures r.Ok? ==> && r.value.id !in old(Collection(kind))
                        && FromBody(kind, body) == Ok(r.value.value)
                        && Collection(kind) == old(Collection(kind))[r.value.id := r.value.value]
      ensures forall k :: k != kind ==> Collection(k) == old(Collection(k))
    {
      var created := FromBody(kind, body);
      if created.Err? {
        return Err(created.error);
      }
      var docs := Collection(kind);
      assert HoldsOnly(docs, kind) by { ValidAfterSet(kind); }
      ghost var freeId := FreshId(docs);
      var id :| id !in docs;
      SetCollection(kind, docs[id := created.value]);
      ValidAfterSet(kind);
      r := Ok(Doc(id, created.value));
    }

    /** getProvinceById, getRegencyById, getDistrictsById, getVillageById: the document or nothing, never an error. */
    function GetById(kind: Kind, id: Id): (r: Option<Doc<Region>>)
      reads this
      ensures r.Some? <==> id in Collection(kind)
      ensures r.Some? ==> r.value == Doc(id, Collection(kind)[id])
    {
      if id in Collection(kind) then Some(Doc(id, Collection(kind)[id])) else None
    }

    /**
     * updateProvinceById and the others: NOT_FOUND for an unknown identity,
     * otherwise the body's declared fields are assigned and saved.
     */
    method UpdateById(kind: Kind, id: Id, body: Body) returns (r: Outcome<Doc<Region>>)
      requires Valid()
      modifies this
      ensures Valid()
      ensures id !in old(Collection(kind)) ==> r == Err(NotFound)
      ensures id in old(Collection(kind)) && Assign(old(Collection(kind))[id], body).Err? ==> r == Err(Invalid)
      ensures r.Ok? <==> id in old(Collection(kind)) && Assign(old(Collection(kind))[id], body).Ok?
      ensures r.Err? ==> Collection(kind) == old(Collection(kind))
      ensures r.Ok? ==> && r.value == Doc(id, Assign(old(Collection(kind))[id], body).value)
                        && Collection(kind) == old(Collection(kind))[id := r.value.value]
      ensures forall k :: k != kind ==> Collection(k) == old(Collection(k))
    {
      var found := GetById(kind, id);
      if found.None? {
        return Err(NotFound);
      }
      var updated := Assign(found.value.value, body);
      if updated.Err? {
        return Err(updated.error);
      }
      var docs := Collection(kind);
      assert HoldsOnly(docs, kind) by { ValidAfterSet(kind); }
      SetCollection(kind, docs[id := updated.value]);
      ValidAfterSet(kind);
      r := Ok(Doc(id, updated.value));
    }

    /**
     * deleteProvinceById and the others: NOT_FOUND for an unknown identity,
     * otherwise removes that document alone and returns it.
     */
    method DeleteById(kind: Kind, id: Id) returns (r: Outcome<Doc<Region>>)
      requires Valid()
      modifies this
      ensures Valid()
      ensures id !in old(Collection(kind)) ==> r == Err(NotFound) && Collection(kind) == old(Collection(kind))
      ensures id in old(Collection(kind)) ==> && r == Ok(Doc(id, old(Collection(kind))[id]))
                                              && Collection(kind) == old(Collection(kind)) - {id}
      ensures GetById(kind, id) == None
      ensures forall k :: k != kind ==> Collection(k) == old(Collection(k))
    {
      var found := GetById(kind, id);
      if found.None? {
        return Err(NotFound);
      }
      var docs := Collection(kind);
      assert HoldsOnly(docs, kind) by { ValidAfterSet(kind); }
      SetCollection(kind, docs - {id});
      ValidAfterSet(kind);
      r := Ok(found.value);
    }
  }

  /**
   * Deleting a province leaves the regencies as they were, and a deleted
   * regency can no longer be found.
   */
  method NoCascadeScenario(store: RegionStore, province: Id, regency: Id)
    requires store.Valid()
    requires province in store.Collection(ProvinceKind) && regency in store.Collection(RegencyKind)
    modifies store
    ensures store.Valid()
    ensures store.Collection(ProvinceKind) == old(store.Collection(ProvinceKind)) - {province}
    ensures store.Collection(RegencyKind) == old(store.Collection(RegencyKind)) - {regency}
    ensures store.Collection(DistrictKind) == old(store.Collection(DistrictKind))
    ensures store.Collection(VillageKind) == old(store.Collection(VillageKind))
  {
    var before := store.GetById(RegencyKind, regency);
    var removed := store.DeleteById(ProvinceKind, province);
    assert removed.Ok? && store.GetById(ProvinceKind, province) == None;
    assert store.GetById(RegencyKind, regency) == before;
    var gone := store.DeleteById(RegencyKind, regency);
    assert gone == Ok(before.value);
    assert store.GetById(RegencyKind, regency) == None;
  }
}

=== FILE: region_validation.dfy ===
/**
 * The request validators of the Province, Regency, Districts and Village
 * routes: create and update bodies, list queries and the identity
 * parameter of update and delete. The Districts validators name two body
 * keys differently from the District schema; the validators as written are
 * kept beside the ones the schema calls for.
 */
module RegionValidation {
  import opened Text
  import opened Documents
  import opened RegionModel
  import opened RequestSchema

  /** The body keys each kind's create and update validators list, as written. */
  function WrittenBodyKeys(kind: Kind): set<string> {
    match kind
    case ProvinceKind => {"kd_province", "name_province"}
    case RegencyKind => {"id_province", "kd_province", "kd_regency", "name_regency"}
    case DistrictKind => {"id_regency", "kd_regency", "kd_districts", "name_districts"}
    case VillageKind => {"id_districts", "kd_districts", "kd_village", "name_village"}
  }

  /** The written key lists are the schema's paths for every kind but District. */
  lemma WrittenBodyKeysDiffer(kind: Kind)
    ensures WrittenBodyKeys(kind) == Paths(kind) <==> kind != DistrictKind
  {
    if kind == DistrictKind {
      assert "kd_district" in Paths(kind) && "kd_district" !in WrittenBodyKeys(kind);
    }
  }

  /** The route parameter naming the document of each kind. */
  function ParamName(kind: Kind): string {
    match kind
    case ProvinceKind => "provinceId"
    case RegencyKind => "regencyId"
    case DistrictKind => "districtsId"
    case VillageKind => "villageId"
  }

  /** createProvince.body and the others as written: every listed key required. */
  predicate ValidCreateAsWritten(kind: Kind, body: Body) {
    Validates(Strings(WrittenBodyKeys(kind), true), 0, body, NoCustomCheck)
  }

  /** updateProvince.body and the others as written: listed keys optional, at least one. */
  predicate ValidUpdateAsWritten(kind: Kind, body: Body) {
    Validates(Strings(WrittenBodyKeys(kind), false), 1, body, NoCustomCheck)
  }

  /** A create validator listing the schema's own paths. */
  predicate ValidCreate(kind: Kind, body: Body) {
    Validates(Strings(Paths(kind), true), 0, body, NoCustomCheck)
  }

  /** An update validator listing the schema's own paths. */
  predicate ValidUpdate(kind: Kind, body: Body) {
    Validates(Strings(Paths(kind), false), 1, body, NoCustomCheck)
  }

  /** getProvince.query and the others: the listed keys as optional filters, a sort order and integer paging. */
  predicate ValidListQuery(kind: Kind, query: Body) {
    Validates(ListQuery(WrittenBodyKeys(kind)), 0, query, NoCustomCheck)
  }

  /** updateProvince.params and the others: the identity is required and passes the objectId check. */
  predicate ValidUpdateParams(kind: Kind, params: Body, objectId: string -> bool) {
    Validates(map[ParamName(kind) := Key(AnyObjectId, true)], 0, params, objectId)
  }

  /** deleteProvince.params and the others: the identity may be left out, but must be a non-empty objectId. */
  predicate ValidDeleteParams(kind: Kind, params: Body, objectId: string -> bool) {
    Validates(map[ParamName(kind) := Key(StrObjectId, false)], 0, params, objectId)
  }

  /** A create body passes as written exactly when it has every listed key, non-empty, and no other. */
  lemma CreateBodyShape(kind: Kind, body: Body)
    ensures ValidCreateAsWritten(kind, body) <==>
      body.Keys == WrittenBodyKeys(kind) && forall key :: key in body ==> body[key] != ""
  {
    RequiredStrings(WrittenBodyKeys(kind), body, NoCustomCheck);
  }

  /** An update body passes as written exactly when it is non-empty, drawn from the listed keys, with no empty value. */
  lemma UpdateBodyShape(kind: Kind, body: Body)
    ensures ValidUpdateAsWritten(kind, body) <==>
      body != map[] && body.Keys <= WrittenBodyKeys(kind) && forall key :: key in body ==> body[key] != ""
  {
    OptionalStrings(WrittenBodyKeys(kind), body, NoCustomCheck);
  }

  /** For Province, Regency and Village the written validators are the ones the schema calls for. */
  lemma WrittenValidatorsAgree(kind: Kind, body: Body)
    requires kind != DistrictKind
    ensures ValidCreateAsWritten(kind, body) <==> ValidCreate(kind, body)
    ensures ValidUpdateAsWritten(kind, body) <==> ValidUpdate(kind, body)
  {
    WrittenBodyKeysDiffer(kind);
  }

  /**
   * As written, every create-Districts body that passes validation lacks
   * `kd_district`, so the District schema refuses to save it.
   */
  lemma DistrictCreateRefused(body: Body)
    requires ValidCreateAsWritten(DistrictKind, body)
    ensures FromBody(DistrictKind, body) == Err(Invalid)
  {
    CreateBodyShape(DistrictKind, body);
    assert "kd_district" !in body;
  }

  /**
   * As written, an update-Districts body that only renames the code or the
   * name passes validation and leaves the district as it was.
   */
  lemma DistrictUpdateIgnored(r: Region, body: Body)
    requires KindOf(r) == DistrictKind && WellFormed(r)
    requires ValidUpdateAsWritten(DistrictKind, body)
    requires body.Keys <= {"kd_districts", "name_districts"}
    ensures Assign(r, body) == Ok(r)
  {
    AssignUndeclaredOnly(r, body);
  }

  /**
   * With the schema's own paths, a body that passes create validation is
   * saved unless a required value is white space alone.
   */
  lemma ValidCreateSaves(kind: Kind, body: Body)
    requires ValidCreate(kind, body)
    ensures FromBody(kind, body).Ok? <==> forall key :: key in RequiredPaths(kind) ==> !IsBlank(body[key])
  {
    RequiredStrings(Paths(kind), body, NoCustomCheck);
    assert RequiredPaths(kind) <= body.Keys;
  }

  /**
   * A saved body that passed create validation sets the optional path too,
   * since the validator requires it.
   */
  lemma ValidCreateSetsName(kind: Kind, body: Body)
    requires ValidCreate(kind, body) && FromBody(kind, body).Ok?
    ensures Name(FromBody(kind, body).value) == Some(Trim(body[OptionalPath(kind)]))
  {
    RequiredStrings(Paths(kind), body, NoCustomCheck);
    var r := FromBody(kind, body).value;
    var opt := OptionalPath(kind);
    assert opt in body && Values(r) == Cast(Paths(kind), body);
    assert Values(r)[opt] == Trim(body[opt]);
    assert Get(Values(r), opt) == Name(r);
  }

  /**
   * With the schema's own paths, every key of a body that passes update
   * validation takes effect when the update is saved.
   */
  lemma ValidUpdateTakesEffect(r: Region, body: Body)
    requires ValidUpdate(KindOf(r), body)
    requires Assign(r, body).Ok?
    ensures body != map[]
    ensures forall key :: key in body ==> Get(Values(Assign(r, body).value), key) == Some(Trim(body[key]))
  {
    OptionalStrings(Paths(KindOf(r)), body, NoCustomCheck);
    forall key | key in body
      ensures Get(Values(Assign(r, body).value), key) == Some(Trim(body[key]))
    {
      AssignFieldwise(r, body, key);
    }
  }

  /**
   * A list query is valid exactly when its keys are among the listed
   * filters, `sortBy`, `limit` and `page`, the strings are non-empty, and
   * `limit` and `page` are integers.
   */
  lemma ListQueryShape(kind: Kind, query: Body)
    ensures ValidListQuery(kind, query) <==>
      && query.Keys <= WrittenBodyKeys(kind) + {"sortBy", "limit", "page"}
      && (forall key :: key in query && key != "limit" && key != "page" ==> query[key] != "")
      && ("limit" in query ==> IsIntegerText(query["limit"]))
      && ("page" in query ==> IsIntegerText(query["page"]))
  {
    RequestSchema.ListQueryShape(WrittenBodyKeys(kind), query);
  }

  /** Update parameters: exactly the kind's identity, passing the objectId check. */
  lemma UpdateParamsShape(kind: Kind, params: Body, objectId: string -> bool)
    ensures ValidUpdateParams(kind, params, objectId) <==>
      params.Keys == {ParamName(kind)} && objectId(params[ParamName(kind)])
  {
  }

  /** Delete parameters: at most the kind's identity, non-empty and passing the objectId check. */
  lemma DeleteParamsShape(kind: Kind, params: Body, objectId: string -> bool)
    ensures ValidDeleteParams(kind, params, objectId) <==>
      && params.Keys <= {ParamName(kind)}
      && (ParamName(kind) in params ==> params[ParamName(kind)] != "" && objectId(params[ParamName(kind)]))
  {
  }
}

=== FILE: request_schema.dfy ===
/**
 * The part of Joi that the request validators use: an object schema whose
 * keys are strings, optional or required, refusing every key it does not
 * list, with an optional lower bound on the number of keys. A request body,
 * query or parameter object is a map from names to the strings the client
 * sent.
 */
module RequestSchema {
  import opened Text
  import opened Documents

  /**
   * The rule a key's value must meet:
   * `Joi.string()`, `Joi.number().integer()`, `Joi.string().custom(objectId)`
   * and `Joi.required().custom(objectId)` (any value the custom check accepts).
   */
  datatype Rule = Str | Integer | StrObjectId | AnyObjectId

  /** A key of an object schema: its rule, and whether `.required()` was called. */
  datatype Key = Key(rule: Rule, required: bool)

  /** `Joi.object().keys({ ... })`: the listed keys and what each must be. */
  type ObjectSchema = map<string, Key>

  /** `Number.MAX_SAFE_INTEGER`, the bound Joi puts on every number it accepts. */
  const MaxSafeInteger: nat := 0x1F_FFFF_FFFF_FFFF

  predicate IsDigit(c: char) {
    '0' <= c <= '9'
  }

  predicate AllDigits(s: string) {
    forall i :: 0 <= i < |s| ==> IsDigit(s[i])
  }

  /** The number a string of decimal digits denotes. */
  function DigitsValue(s: string): nat
    requires AllDigits(s)
  {
    if s == [] then 0
    else DigitsValue(s[..|s| - 1]) * 10 + (s[|s| - 1] as int - '0' as int)
  }

  /** The decimal digits of a natural number, without leading zeros. */
  function Decimal(n: nat): (s: string)
    ensures s != [] && AllDigits(s)
    ensures |s| > 1 ==> s[0] != '0'
  {
    var last := ('0' as int + n % 10) as char;
    if n < 10 then [last] else Decimal(n / 10) + [last]
  }

  /** The decimal rendering of a number reads back as that number. */
  lemma {:induction false} DecimalValue(n: nat)
    ensures DigitsValue(Decimal(n)) == n
  {
    if n >= 10 {
      var s := Decimal(n);
      assert s[..|s| - 1] == Decimal(n / 10);
      DecimalValue(n / 10);
    }
  }

  /** The text after an optional leading sign. */
  function Unsigned(t: string): (u: string)
    ensures |u| <= |t|
  {
    if t != [] && (t[0] == '+' || t[0] == '-') then t[1..] else t
  }

  /**
   * The number `Joi.number().integer()` converts a string to, or None when it
   * refuses the string: surrounding white space, an optional sign and decimal
   * digits whose value stays within the safe-integer range. A negative zero
   * converts to zero.
   */
  function IntegerValue(s: string): (r: Option<int>)
    ensures r.Some? ==> -(MaxSafeInteger as int) <= r.value <= MaxSafeInteger
  {
    var t := Trim(s);
    var u := Unsigned(t);
    if u != [] && AllDigits(u) && DigitsValue(u) <= MaxSafeInteger then
      Some(if t[0] == '-' then -(DigitsValue(u) as int) else DigitsValue(u))
    else None
  }

  /** `Joi.number().integer()` accepts the string: it converts to a safe integer. */
  predicate IsIntegerText(s: string) {
    IntegerValue(s).Some?
  }

  /** Every safe natural number, written in decimal, is accepted as an integer with that value. */
  lemma DecimalIsIntegerText(n: nat)
    requires n <= MaxSafeInteger
    ensures IsIntegerText(Decimal(n))
    ensures IntegerValue(Decimal(n)) == Some(n)
  {
    var s := Decimal(n);
    assert !IsSpace(s[0]) && !IsSpace(s[|s| - 1]);
    TrimOfTrimmed(s);
    DecimalValue(n);
  }

  /** Minus a safe natural number in decimal is accepted with the negated value; "-0" gives zero. */
  lemma NegatedDecimalIsIntegerText(n: nat)
    requires n <= MaxSafeInteger
    ensures IntegerValue("-" + Decimal(n)) == Some(-(n as int))
  {
    var d := Decimal(n);
    var s := "-" + d;
    assert !IsSpace(s[0]) && s[|s| - 1] == d[|d| - 1] && !IsSpace(s[|s| - 1]);
    TrimOfTrimmed(s);
    assert Unsigned(s) == d;
    DecimalValue(n);
  }

  /** Trimming a string with no digit leaves a string with no digit. */
  lemma TrimKeepsNoDigits(s: string)
    requires forall i :: 0 <= i < |s| ==> !IsDigit(s[i])
    ensures forall k :: 0 <= k < |Trim(s)| ==> !IsDigit(Trim(s)[k])
  {
    var t := Trim(s);
    TrimIsTrimOf(s);
    var i :| 0 <= i <= |s| - |t| && t == s[i..i + |t|] && IsBlank(s[..i]) && IsBlank(s[i + |t|..]);
    forall k | 0 <= k < |t|
      ensures !IsDigit(t[k])
    {
      assert t[k] == s[i + k];
    }
  }

  /** A string with no digit at all (an empty value among them) is never an integer. */
  lemma NoDigitsNoInteger(s: string)
    requires forall i :: 0 <= i < |s| ==> !IsDigit(s[i])
    ensures !IsIntegerText(s)
  {
    var t := Trim(s);
    TrimKeepsNoDigits(s);
    var u := Unsigned(t);
    if u != [] {
      assert u[0] == t[|t| - |u|];
    }
    assert !(u != [] && AllDigits(u));
  }

  /** Whether a value meets a rule; `objectId` is the custom check, not part of this model. */
  predicate Accepts(rule: Rule, v: string, objectId: string -> bool) {
    match rule
    case Str => v != ""
    case Integer => IsIntegerText(v)
    case StrObjectId => v != "" && objectId(v)
    case AnyObjectId => objectId(v)
  }

  /** The custom check passed to a schema with no objectId key: never consulted. */
  const NoCustomCheck: string -> bool := _ => true

  /**
   * `schema.min(minKeys).validate(obj)` succeeds: no key outside the schema,
   * every required key present, every value meeting its key's rule, and at
   * least `minKeys` keys.
   */
  predicate Validates(schema: ObjectSchema, minKeys: nat, obj: Body, objectId: string -> bool): (ok: bool)
    ensures ok ==> RequiredKeys(schema) <= obj.Keys <= schema.Keys
  {
    && obj.Keys <= schema.Keys
    && (forall key :: key in schema && schema[key].required ==> key in obj)
    && (forall key :: key in obj && key in schema ==> Accepts(schema[key].rule, obj[key], objectId))
    && |obj| >= minKeys
  }

  /** A valid object has at least `minKeys` keys and no more keys than the schema lists. */
  lemma ValidatesSize(schema: ObjectSchema, minKeys: nat, obj: Body, objectId: string -> bool)
    requires Validates(schema, minKeys, obj, objectId)
    ensures minKeys <= |obj| <= |schema|
  {
    SubsetSize(obj.Keys, schema.Keys);
  }

  /** The keys a schema marks `.required()`. */
  function RequiredKeys(schema: ObjectSchema): set<string> {
    set key | key in schema && schema[key].required
  }

  /** A subset is no larger than its superset. */
  lemma {:induction false} SubsetSize<T>(a: set<T>, b: set<T>)
    ensures a <= b ==> |a| <= |b|
    decreases |a|
  {
    if a != {} && a <= b {
      var x :| x in a;
      SubsetSize(a - {x}, b - {x});
    }
  }

  /** The schema listing `keys`, each a string with the given requiredness. */
  function Strings(keys: set<string>, required: bool): (schema: ObjectSchema)
    ensures schema.Keys == keys
    ensures forall key :: key in schema ==> schema[key] == Key(Str, required)
  {
    map key | key in keys :: Key(Str, required)
  }

  /**
   * The list-query schema: optional string filters, an optional `sortBy`
   * string and optional integer `limit` and `page`.
   */
  function ListQuery(filters: set<string>): (schema: ObjectSchema)
    ensures schema.Keys == filters + {"sortBy", "limit", "page"}
  {
    Strings(filters, false) + map["sortBy" := Key(Str, false), "limit" := Key(Integer, false), "page" := Key(Integer, false)]
  }

  /**
   * A list query is valid exactly when its keys are among the filters,
   * `sortBy`, `limit` and `page`, the strings are non-empty, and `limit` and
   * `page` are integers.
   */
  lemma ListQueryShape(filters: set<string>, query: Body)
    requires "limit" !in filters && "page" !in filters
    ensures Validates(ListQuery(filters), 0, query, NoCustomCheck) <==>
      && query.Keys <= filters + {"sortBy", "limit", "page"}
      && (forall key :: key in query && key != "limit" && key != "page" ==> query[key] != "")
      && ("limit" in query ==> IsIntegerText(query["limit"]))
      && ("page" in query ==> IsIntegerText(query["page"]))
  {
    var schema := ListQuery(filters);
    assert forall key :: key in schema && key != "limit" && key != "page" ==> schema[key] == Key(Str, false);
    assert schema["limit"] == Key(Integer, false) && schema["page"] == Key(Integer, false);
  }

  /** A schema of required strings accepts exactly the objects with those keys, all non-empty. */
  lemma RequiredStrings(keys: set<string>, obj: Body, objectId: string -> bool)
    ensures Validates(Strings(keys, true), 0, obj, objectId) <==>
      obj.Keys == keys && forall key :: key in obj ==> obj[key] != ""
  {
  }

  /**
   * A schema of optional strings with `.min(1)` accepts exactly the non-empty
   * objects drawn from those keys, all values non-empty.
   */
  lemma OptionalStrings(keys: set<string>, obj: Body, objectId: string -> bool)
    ensures Validates(Strings(keys, false), 1, obj, objectId) <==>
      obj != map[] && obj.Keys <= keys && forall key :: key in obj ==> obj[key] != ""
  {
    if obj != map[] {
      var key :| key in obj;
      assert key in obj.Keys;
    }
  }

  /** The `.min(1)` bound refuses exactly the empty object. */
  lemma MinOneRefusesEmpty(schema: ObjectSchema, obj: Body, objectId: string -> bool)
    ensures Validates(schema, 1, obj, objectId) <==> Validates(schema, 0, obj, objectId) && obj != map[]
  {
    if obj != map[] {
      var key :| key in obj;
      assert key in obj.Keys;
    }
  }
}

=== FILE: text.dfy ===
/**
 * Trimming of string values, as every schema path declared with `trim: true`
 * applies it: JavaScript's String.prototype.trim, which removes white space and
 * line terminators from both ends of a string.
 */
module Text {

  /** The ECMAScript WhiteSpace and LineTerminator code points. */
  predicate IsSpace(c: char) {
    || c == ' ' || c == '\t' || c == '\n' || c == '\r'
    || c == '\U{B}' || c == '\U{C}' || c == '\U{A0}' || c == '\U{1680}'
    || ('\U{2000}' <= c <= '\U{200A}')
    || c == '\U{2028}' || c == '\U{2029}' || c == '\U{202F}' || c == '\U{205F}'
    || c == '\U{3000}' || c == '\U{FEFF}'
  }

  /** Neither end of `s` is white space. */
  predicate IsTrimmed(s: string) {
    s == [] || (!IsSpace(s[0]) && !IsSpace(s[|s| - 1]))
  }

  /** Every character of `s` is white space (the empty string included). */
  predicate IsBlank(s: string) {
    forall i :: 0 <= i < |s| ==> IsSpace(s[i])
  }

  /** `s` without its leading white space. */
  function TrimStart(s: string): (r: string)
    ensures |r| <= |s|
    ensures r == [] || !IsSpace(r[0])
  {
    if s != [] && IsSpace(s[0]) then TrimStart(s[1..]) else s
  }

  /** `s` without its trailing white space; the first character, if any is left, is kept. */
  function TrimEnd(s: string): (r: string)
    ensures |r| <= |s|
    ensures r == [] || (!IsSpace(r[|r| - 1]) && r[0] == s[0])
  {
    if s != [] && IsSpace(s[|s| - 1]) then TrimEnd(s[..|s| - 1]) else s
  }

  /** TrimStart drops a blank prefix and keeps the rest of the string. */
  lemma {:induction false} TrimStartDropsBlank(s: string)
    ensures TrimStart(s) == s[|s| - |TrimStart(s)|..]
    ensures IsBlank(s[..|s| - |TrimStart(s)|])
  {
    if s != [] && IsSpace(s[0]) {
      TrimStartDropsBlank(s[1..]);
      var k := |s| - |TrimStart(s)|;
      assert s[..k] == [s[0]] + s[1..][..k - 1];
    }
  }

  /** TrimEnd drops a blank suffix and keeps the rest of the string. */
  lemma {:induction false} TrimEndDropsBlank(s: string)
    ensures TrimEnd(s) == s[..|TrimEnd(s)|]
    ensures IsBlank(s[|TrimEnd(s)|..])
  {
    if s != [] && IsSpace(s[|s| - 1]) {
      var p := s[..|s| - 1];
      TrimEndDropsBlank(p);
      var k := |TrimEnd(s)|;
      assert s[k..] == p[k..] + [s[|s| - 1]];
    }
  }

  /**
   * `r` is what trimming `s` yields: a trimmed middle section of `s` with
   * nothing but white space before and after it.
   */
  ghost predicate IsTrimOf(r: string, s: string) {
    && IsTrimmed(r)
    && exists i :: 0 <= i <= |s| - |r| && r == s[i..i + |r|] && IsBlank(s[..i]) && IsBlank(s[i + |r|..])
  }

  /** String.prototype.trim. */
  function Trim(s: string): (r: string)
    ensures IsTrimmed(r) && |r| <= |s|
  {
    TrimEnd(TrimStart(s))
  }

  /** Trim removes white space from both ends and nothing else. */
  lemma TrimIsTrimOf(s: string)
    ensures IsTrimOf(Trim(s), s)
  {
    var t := TrimStart(s);
    var r := TrimEnd(t);
    TrimStartDropsBlank(s);
    TrimEndDropsBlank(t);
    var i := |s| - |t|;
    assert r == s[i..i + |r|];
    assert s[i + |r|..] == t[|r|..];
  }

  /** Trimming leaves an already trimmed string as it is. */
  lemma TrimOfTrimmed(s: string)
    requires IsTrimmed(s)
    ensures Trim(s) == s
  {
  }

  /** Trimming twice is trimming once. */
  lemma TrimIdempotent(s: string)
    ensures Trim(Trim(s)) == Trim(s)
  {
    TrimOfTrimmed(Trim(s));
  }

  /** Trimming yields the empty string exactly when the string is all white space. */
  lemma TrimBlank(s: string)
    ensures Trim(s) == "" <==> IsBlank(s)
  {
    var t := TrimStart(s);
    TrimStartDropsBlank(s);
    if Trim(s) == "" {
      TrimEndDropsBlank(t);
      assert t == [];
      assert s[..|s|] == s;
    } else {
      assert t != [] && s[|s| - |t|] == t[0];
    }
  }
}
